=== FILE: README.md ===
# Waffle House location scraper — a Dafny model of `waffles(state)`

`webscraping/waffles.py` builds one table per US state of Waffle House
locations, scraped from a restaurant directory. After fetching a state's
listing page, `waffles(state)` does the following:

1. It cuts the text of every class-less `<ul>` into location blobs. It
   splits on `"\n\n\n"`, chains the pieces and strips them.
2. It keeps the list children whose `len` is above 1 (the contents of a
   tag, the characters of a text node). From each
   child's anchor title (`"... in <City>-..."`) it takes the city.
3. It builds the multi-location rows: the blob, the city, the address after
   `" at "` and the zip at offset 16..21.
4. It reads the sitewide city index (the `list-unstyled-links` anchors). It
   de-duplicates the titles and trims each title to a city name.
5. It keeps the index cities that have no row: the *remainder*, and
   `finalDict` from each such city to its anchor title.
6. For each remainder city, it reads the street and the postal code from
   the city's own detail page. The result is a `"single loc"` row.
7. It appends those rows to the multi-location rows.

Separately, the geocoder's input for each row is
`address + ", " + cities + " " + zip`.

The model is split into six modules:

- `Wrappers`: `Option`, `Result`, and `MapUntilError`, which runs a
  `for` loop that stops at the first exception.
- `PyStr`: the Python 2 string operations the scraper relies on, on
  `seq<char>`:
  - `find`, which gives -1 when absent;
  - clamped slicing, where a negative stop counts from the end;
  - `split` on a non-empty separator;
  - `join`;
  - `strip`, over the unicode whitespace set, since BeautifulSoup yields
    unicode. On printable ASCII that set agrees with the byte-string set
    that the detail-page strips use;
  - `replace`.
- `PyList`: the list idioms:
  - first-seen de-duplication, both as a function and as the loop the
    source writes;
  - filtering by non-membership;
  - `dict(zip(...))`, where a later pair overwrites an earlier one;
  - iteration over a dict's items.
- `Listing`: steps 1–5.
- `Resolver`: step 6.
- `Assembly`: step 7 and the geocoder string.

Every exception the listing page and the detail pages can raise in the
source is a `ParseError` value, so each step returns a `Result`. The
exceptions of fetching a detail page are not modelled (see "Left out").

A few behaviours of the code are easy to misread; the model follows the code:

- With no `" at "` in a blob, `find` gives -1. The address is then
  `x[3:]`, the blob without its first three characters, not an empty
  string.
- With no `" - "` in an index title, the name is `x[16:-1]`. That drops
  the title's last character.
- The `"single loc"` marker goes in the `raw` column. The appended frame's
  columns are named `['cities', 'raw', 'address', 'zip']` in that order,
  and each single-location row is `[key, "single loc", newAddress, zipCode]`.
- The number of multi-location rows is the number of blobs. When it differs
  from the number of kept list children, building the DataFrame raises.
  This is the `ColumnLengths` error.

## Model

| member | source | states |
|---|---|---|
| Wrappers.MapUntilError | webscraping/waffles.py:47-49 | A loop that appends one result per element succeeds exactly when every element succeeds. Its list then holds each element's result, in order. On failure, the error is the first failing element's error: every earlier element succeeded. |
| PyStr.Find | webscraping/waffles.py:54 | `find` returns a non-negative index exactly when the needle occurs. That index is its first occurrence. Otherwise it returns -1. |
| PyStr.Slice | webscraping/waffles.py:55 | `s[start:stop]` has the length of the clamped window, where negative bounds count from the end. Its characters are the ones of `s` from the clamped start onwards. |
| PyStr.Split | webscraping/waffles.py:29 | `split` (`Split`) gives at least one piece. Joining the pieces with the separator (`Join`, Python's `sep.join`) gives back the input. No piece holds the separator. There are two or more pieces exactly when the separator occurs. |
| PyStr.SplitLeftmost | webscraping/waffles.py:29 | Every piece but the last, followed by the separator, holds no earlier start of the separator. So each cut is at the leftmost occurrence, which fixes the pieces even for a separator that overlaps itself, such as `"\n\n\n"`. |
| PyStr.SplitFirst | webscraping/waffles.py:49 | The first piece of a split is the text before the first separator, or the whole text when there is none. The second piece is the first piece of what follows that separator. |
| PyStr.SplitKeepsAbsent | webscraping/waffles.py:49 | Splitting a text that holds no `t` gives pieces that hold no `t`. |
| PyStr.Strip | webscraping/waffles.py:34 | `strip` leaves no whitespace at either end and never lengthens its input. |
| PyStr.StripPadded | webscraping/waffles.py:34 | Stripping a text padded with whitespace on both sides gives back the text, when the text itself has non-space ends. |
| PyStr.StripIdempotent | webscraping/waffles.py:34 | Stripping twice is stripping once. |
| PyStr.StripKeepsAbsent | webscraping/waffles.py:34 | Stripping cannot create an occurrence of a substring. |
| PyStr.PrintableSpace | webscraping/waffles.py:95 | On printable ASCII a character is unicode whitespace exactly when it is byte-string whitespace, and exactly when it is the space. |
| PyList.Dedup | webscraping/waffles.py:60-64 | The de-duplicated list has no duplicates and holds exactly the input's elements. |
| PyList.DedupLoop | webscraping/waffles.py:60-64 | The `if title not in allCities: allCities.append(title)` loop computes the de-duplicated list. |
| PyList.DedupOrder | webscraping/waffles.py:60-64 | The de-duplicated list keeps the elements in the order of their first occurrence in the input. |
| PyList.FilterOut | webscraping/waffles.py:71 | `[x for x in xs if x not in excl]` holds exactly the elements of `xs` not in `excl`, with their multiplicity. It is a subsequence of `xs`, so it keeps their order. |
| PyList.ZipToMap | webscraping/waffles.py:74 | The keys of `dict(zip(ks, vs))` are exactly the elements of `ks`. A key at its last position maps to the value paired there. |
| PyList.ZipLast | webscraping/waffles.py:74 | Every key of `dict(zip(ks, vs))` maps to the value paired with its last occurrence. |
| PyList.ItemsLength | webscraping/waffles.py:77 | Iterating a dict's items visits exactly as many items as the dict has keys. |
| PyList.ItemsAll | webscraping/waffles.py:83 | A property holds of every visited item exactly when it holds of every entry of the dict, whatever the iteration order. |
| PyList.ItemsOnePerKey | webscraping/waffles.py:83-103 | Rows produced one per visited item are one per key of the dict, with no key twice. |
| Listing.Pieces | webscraping/waffles.py:28-33 | Chaining the pieces of every list yields at least one piece per list, and no piece holds `"\n\n\n"`. |
| Listing.PiecesOfOne | webscraping/waffles.py:28-29 | The pieces (`Pieces`, over each list's `EntryText`) of one list, joined back with `"\n\n\n"`, give that list's joined text. |
| Listing.PiecesAppend | webscraping/waffles.py:30-33 | The chain loses and adds nothing: the pieces of two runs of lists are the first run's pieces followed by the second's. |
| Listing.PiecesWhole | webscraping/waffles.py:28-33 | When no list's text holds `"\n\n\n"`, the pieces are exactly the lists' texts, one per list, in order. |
| Listing.Blobs | webscraping/waffles.py:27-34 | The `addresses` list has one blob per piece, so at least one per list. No blob holds `"\n\n\n"`, and none has whitespace at either end. |
| Listing.BlobsArePieces | webscraping/waffles.py:34 | Blob `i` is piece `i`, stripped. |
| Listing.BlobsWhole | webscraping/waffles.py:27-34 | When no list's text holds `"\n\n\n"`, there is exactly one blob per list: that list's text, stripped. |
| Listing.ChildrenAppend | webscraping/waffles.py:37-43 | Chaining children (`Children`) loses and adds nothing: one list gives its own children, and two runs of lists give the first run's children followed by the second's. |
| Listing.Entries | webscraping/waffles.py:44 | The kept children are exactly those with `len > 1`, each with its multiplicity and in document order. |
| Listing.AddressSpec | webscraping/waffles.py:54 | The address (`Address`) is always a suffix of the blob. It is the text after the first `" at "` when there is one. Otherwise it is the blob without its first three characters. |
| Listing.ZipSpec | webscraping/waffles.py:55 | The zip (`Zip`) has length `max(0, min(21, n) - 16)` for a blob of length `n`, so at most five. It is taken from offset 16. |
| Listing.City | webscraping/waffles.py:49 | City extraction fails only with the title's own IndexError. An extracted city holds neither `"-"` nor `" in "`. |
| Listing.RowCities | webscraping/waffles.py:47-49 | A read city list (`EntryCities`, one `NodeCity` per entry) has one city per entry. Each entry is a tag whose anchor has a title, and its city is what `City` extracts from that title. |
| Listing.CitySpec | webscraping/waffles.py:49 | City extraction succeeds exactly when the part of the title before the first `"-"` holds `" in "`. It yields the text from there to the next `" in "`, or to the end of that part. |
| Listing.IndexTitlesIn | webscraping/waffles.py:58-62 | The collected titles (`IndexTitles`, one `TitleOf` per anchor) are the anchors' titles, one per anchor and in anchor order, so a title is collected exactly when it is an anchor's title. |
| Listing.IndexTitlesOk | webscraping/waffles.py:60-62 | The index titles are read exactly when every index anchor has a title. |
| Listing.IndexNameSpec | webscraping/waffles.py:67 | The index name (`IndexName`) is `title[16:k]`. Here `k` is the first `" - "`, or the last character when there is none. The name is empty when 16 is not below `k`. |
| Listing.ToRemove | webscraping/waffles.py:70 | `toRemove` holds exactly the stripped extracted cities. |
| Listing.Remainder | webscraping/waffles.py:70-71 | The remainder holds exactly the index names that equal no stripped extracted city. It keeps their multiplicity and their index order. |
| Listing.FinalDictSpec | webscraping/waffles.py:74-79 | `finalDict`'s (`FinalDict` over `ZipToMap`) keys are exactly the `newDict` keys in the remainder, which are all the remainder cities. Each key keeps its `newDict` value, which is the title paired with the key's last occurrence among the index names. No key is a stripped extracted city. Conversely, every index name that is no stripped extracted city is a key. |
| Listing.MakeListingSpec | webscraping/waffles.py:52-79 | `MakeListing` gives one row per blob, holding the blob, its address, its zip and its entry's city. Each `finalDict` value is a collected title whose index name is its key, and no extracted city strips to the key. Conversely, the index name of every collected title that no extracted city strips to is a key. |
| Listing.MakeListingPicks | webscraping/waffles.py:60-79 | Each `finalDict` key maps to the last title, among the titles de-duplicated in first-seen order, whose index name is that key. No later de-duplicated title has that name. |
| Listing.FinalDictPicks | webscraping/waffles.py:74-79 | For `dict(zip(names, d))` restricted to any remainder, each key maps to the last title of `d` whose name is that key. |
| Listing.LastName | webscraping/waffles.py:67-74 | The last position of a name among the index names of `d` is the last title of `d` with that name. |
| Listing.IndexNamesCover | webscraping/waffles.py:60-71 | The name of every collected title is among the names of the de-duplicated titles, so a fact about every such name that avoids the extracted cities holds of every title's name that avoids them. |
| Listing.ParseListingOk | webscraping/waffles.py:24-79 | Reading the listing page (`ParseListing`) fails exactly in these cases: an entry's city cannot be extracted, the blob and entry counts differ, the city index is absent, or an index anchor has no title. |
| Listing.ParseListingSpec | webscraping/waffles.py:24-79 | A read listing has as many rows as blobs and as kept children. Row `i` holds blob `i`, its address and zip, and the city of entry `i`: entry `i` is a tag with a titled anchor, and `City` of that title is the row's city. Each `finalDict` value is the title of an index anchor, its key is that title's name, and no row city strips to the key. Conversely, the name of every index anchor's title that no row city strips to is a `finalDict` key. |
| Listing.ParseListingPicks | webscraping/waffles.py:58-79 | After a successful parse, each `finalDict` key maps to the last title with that name among the index anchors' titles, de-duplicated in first-seen order. That title picks the detail page line 85 fetches. |
| Listing.CoverAnchors | webscraping/waffles.py:58-79 | The converse cover, stated over the collected titles and the extracted cities, carries over to the index anchors and the row cities. |
| Resolver.CleanField | webscraping/waffles.py:95 | The field cleanup succeeds exactly when the text holds an escaped tab, and its result has no whitespace at either end. |
| Resolver.RemoveListClose | webscraping/waffles.py:95 | `replace("']", "")` (`Replace`) on a text ending in `']` with no other quote gives the text without that ending. |
| Resolver.CleanFieldOfRepr | webscraping/waffles.py:94-95 | On the repr of one text node, the cleanup recovers the node's text, stripped. The repr is a prefix, an escaped tab, the text and `']`. |
| Resolver.ResolveOne | webscraping/waffles.py:94-102 | A row is a `"single loc"` row for the entry's own city, with stripped address and zip. An exception is a missing span or a span without an escaped tab, and it names that city. |
| Resolver.ResolveOneOk | webscraping/waffles.py:94-99 | A detail page gives a row exactly when both spans are present and each holds an escaped tab. |
| Resolver.ResolveOneFields | webscraping/waffles.py:94-102 | A resolved row's address is the cleaned street span and its zip the cleaned postal-code span. |
| Resolver.ResolveSingles | webscraping/waffles.py:82-103 | A built `restaurantList` holds one `"single loc"` row per visited item, for that item's city, in visiting order. |
| Resolver.ResolveSinglesErr | webscraping/waffles.py:82-103 | A failed loop raises the exception of the first item whose detail page does not resolve, and every earlier item resolves. |
| Resolver.ResolveSinglesSpec | webscraping/waffles.py:82-103 | `restaurantList` is built exactly when every item resolves. Each row is then the one its own item's detail page resolves to. |
| Assembly.Assemble | webscraping/waffles.py:106-113 | With no single-location rows the table is the multi-location table. Otherwise it is the multi-location rows followed by the single-location rows. |
| Assembly.StateTableOk | webscraping/waffles.py:82-113 | For the table (`StateTable`), whatever order `finalDict` is iterated in, the table is built exactly when every remainder city's detail page resolves. |
| Assembly.SingleRowsResolve | webscraping/waffles.py:83-103 | Each single-location row belongs to a `finalDict` city. It is the row that city's own detail page resolves to. |
| Assembly.AssembleKeeps | webscraping/waffles.py:110-112 | Appending keeps the multi-location rows in front. Past them come exactly one `"single loc"` row per `finalDict` city. |
| Assembly.StateTableSpec | webscraping/waffles.py:105-113 | The table is the multi-location rows unchanged, then one `"single loc"` row per `finalDict` city and no city twice. Its length is the sum of the two counts. With an empty `finalDict` it is the multi-location rows. |
| Assembly.RemainderOrder | webscraping/waffles.py:76-83 | Every remainder city is a `finalDict` key. Listing `finalDict` by the remainder's first-seen order is a valid iteration of its items. |
| Assembly.FullShape | webscraping/waffles.py:129 | For every row, the geocoder string (`Full`) is the address, `", "`, the city, a space and the zip, in that order and with nothing else. |
| Assembly.FullAddress | webscraping/waffles.py:129 | When the address holds no `", "`, the geocoder string's text before its first `", "` is the address. |

## Left out

- HTTP is not modelled (lines 10-20 and 85-91). The request headers, the fetches and the `href` lookup of a remainder title are one parameter, `fetch`, from an anchor title to the detail page as the scraper reads it.
- Because `fetch` is total, two exceptions of the detail-page loop cannot happen in the model: the `KeyError` of `["href"]` on an anchor without a link (line 85), and a failed request or read (lines 88-90).
- BeautifulSoup is not modelled (lines 21, 24, 29, 38-44, 58, 85, 94, 98). Its answers are inputs: `EntryList` holds a list's text nodes and children, `Node` a child's length and anchor title, `ListingPage` the lists and the index anchors' titles, and `DetailPage` the two span texts.
- The regular-expression rewrite of the stringified span contents (lines 95 and 99) is not modelled. It depends on Python's list repr and regex engine, so `DetailPage` holds the text after that rewrite. Only the tail is modelled: split on the escaped tab, take `[1]`, remove `']`, strip.
- Python 2 dict iteration order (lines 77 and 83) is unspecified. The caller chooses the order, as any sequence of the dict's items. `StateTableOk` and `StateTableSpec` hold for every such order. `finalDict` is built as a map, so its loop at 77-79 needs no order.
- pandas is not modelled. A DataFrame is a sequence of `Row` values. The index labels that `append` keeps are not modelled, nor is column alignment beyond the named columns. Of pandas' errors, only the length mismatch at line 52 is.
- Python 2 byte strings versus unicode: strings are sequences of characters. `strip` uses the unicode whitespace set, because BeautifulSoup yields unicode. The strips at lines 95 and 99 run on a byte string (`str(...)`), whose whitespace set is ASCII only; see `Resolver.CleanField` below.
- The driver loop over states, the CSV round trip and the Bing geocoding (lines 115-141) are not modelled. They are I/O and foreign calls. `keyString` is never defined in that file. `Full` assumes the three columns are still strings; reading them back from CSV may change their type.
- The Scrapy spider in waffle/waffle/spiders/waffle_spider.py is not part of this model. It only writes response bodies to files.
- Resolver.CleanField: strips with the unicode whitespace set, while the source strips the byte string `str(...contents)`, whose set is ASCII whitespace. The two sets agree on printable ASCII (`PyStr.PrintableSpace`), and a Python 2 repr escapes every non-ASCII and control character, so on real span reprs the results are the same; on other texts the model may strip more. It states only when the cleanup succeeds and that its result is stripped. What it yields on a general span text is stated by `CleanFieldOfRepr`, and only for the repr of a single text node without backslashes or quotes.

=== FILE: assembly.dfy ===
/** The last step of `waffles(state)` in webscraping/waffles.py (lines
    105-113), which puts the multi-location rows and the single-location
    rows into one state table, and the geocoder's input string built from
    each row (line 129). */
module Assembly {
  import opened Wrappers
  import opened PyStr
  import opened PyList
  import opened Listing
  import opened Resolver

  /** `data` alone when no single-location row was built, otherwise
      `data.append(final)`: the multi-location rows first, then the others. */
  function Assemble(multi: seq<Row>, single: seq<Row>): (r: seq<Row>)
    ensures |single| == 0 ==> r == multi
    ensures |r| == |multi| + |single|
    ensures r[..|multi|] == multi && r[|multi|..] == single
  {
    if |single| == 0 then multi else multi + single
  }

  /** A state's table, with `finalDict` iterated as `items`. */
  function StateTable(l: ParsedListing, items: seq<(string, string)>, fetch: string -> DetailPage): Result<seq<Row>, ParseError>
    requires IsItems(items, l.finalDict)
  {
    match ResolveSingles(items, fetch)
    case Err(e) => Err(e)
    case Ok(single) => Ok(Assemble(l.rows, single))
  }

  /** Whatever order `finalDict` is iterated in, the table is built exactly
      when every remainder city resolves. */
  lemma StateTableOk(l: ParsedListing, items: seq<(string, string)>, fetch: string -> DetailPage)
    requires IsItems(items, l.finalDict)
    ensures StateTable(l, items, fetch).Ok? <==>
      forall k :: k in l.finalDict ==> ResolveOne(k, fetch(l.finalDict[k])).Ok?
  {
    ResolveSinglesSpec(items, fetch);
    ItemsAll(items, l.finalDict, (city: string, title: string) => ResolveOne(city, fetch(title)).Ok?);
  }

  /** Each single-location row is the row its city's own detail page
      resolves to. */
  lemma SingleRowsResolve(finalDict: map<string, string>, items: seq<(string, string)>, fetch: string -> DetailPage,
                          single: seq<Row>)
    requires IsItems(items, finalDict)
    requires ResolveSingles(items, fetch) == Ok(single)
    ensures forall i :: 0 <= i < |single| ==>
      && single[i].city in finalDict
      && ResolveOne(single[i].city, fetch(finalDict[single[i].city])) == Ok(single[i])
  {
    ResolveSinglesSpec(items, fetch);
    var keys := ItemKeys(items);
    assert forall i :: 0 <= i < |items| ==> keys[i] in finalDict;
  }

  /** Past the multi-location rows come the single-location rows. */
  lemma AssembleTail(multi: seq<Row>, single: seq<Row>)
    ensures var t := Assemble(multi, single);
      forall i :: |multi| <= i < |t| ==> t[i] == single[i - |multi|]
  {
  }

  /** Appending keeps the single-location rows' properties, shifted past
      the multi-location rows. */
  lemma AssembleKeeps(multi: seq<Row>, single: seq<Row>, finalDict: map<string, string>)
    requires |single| == |finalDict|
    requires forall i :: 0 <= i < |single| ==> single[i].raw == SingleLoc && single[i].city in finalDict
    requires forall k :: k in finalDict ==> exists i :: 0 <= i < |single| && single[i].city == k
    requires forall i, j :: 0 <= i < j < |single| ==> single[i].city != single[j].city
    ensures var t := Assemble(multi, single);
      var n := |multi|;
      && |t| == n + |finalDict|
      && t[..n] == multi
      && (|finalDict| == 0 ==> t == multi)
      && (forall i :: n <= i < |t| ==> t[i].raw == SingleLoc && t[i].city in finalDict)
      && (forall k :: k in finalDict ==> exists i :: n <= i < |t| && t[i].city == k)
      && (forall i, j :: n <= i < j < |t| ==> t[i].city != t[j].city)
  {
    var t := Assemble(multi, single);
    var n := |multi|;
    AssembleTail(multi, single);
    forall k | k in finalDict
      ensures exists i :: n <= i < |t| && t[i].city == k
    {
      var j :| 0 <= j < |single| && single[j].city == k;
      assert t[n + j] == single[j];
    }
  }

  /** A built table holds the multi-location rows unchanged and then one
      "single loc" row per `finalDict` city; with no remainder city it is
      the multi-location rows. */
  lemma StateTableSpec(l: ParsedListing, items: seq<(string, string)>, fetch: string -> DetailPage, t: seq<Row>)
    requires IsItems(items, l.finalDict)
    requires StateTable(l, items, fetch) == Ok(t)
    ensures |t| == |l.rows| + |l.finalDict|
    ensures t[..|l.rows|] == l.rows
    ensures |l.finalDict| == 0 ==> t == l.rows
    ensures forall i :: |l.rows| <= i < |t| ==> t[i].raw == SingleLoc && t[i].city in l.finalDict
    ensures forall k :: k in l.finalDict ==> exists i :: |l.rows| <= i < |t| && t[i].city == k
    ensures forall i, j :: |l.rows| <= i < j < |t| ==> t[i].city != t[j].city
  {
    var single := ResolveSingles(items, fetch).value;
    assert t == Assemble(l.rows, single);
    ItemsOnePerKey(items, l.finalDict, single, (row: Row) => row.city);
    AssembleKeeps(l.rows, single, l.finalDict);
  }

  /** The items of `finalDict` in the order the remainder first names them. */
  function RemainderItems(l: ParsedListing): seq<(string, string)>
    requires forall k :: k in l.remainder ==> k in l.finalDict
  {
    var d := Dedup(l.remainder);
    seq(|d|, i requires 0 <= i < |d| => (d[i], l.finalDict[d[i]]))
  }

  /** Listing `finalDict`'s keys in the order the remainder first names them
      enumerates its items, when those keys are the remainder cities. */
  lemma RemainderItemsEnumerate(l: ParsedListing)
    requires forall k :: k in l.finalDict <==> k in l.remainder
    ensures IsItems(RemainderItems(l), l.finalDict)
  {
    assert ItemKeys(RemainderItems(l)) == Dedup(l.remainder);
  }

  /** An iteration of a parsed listing's `finalDict` always exists: its
      cities in the order the remainder first names them. */
  lemma RemainderOrder(page: ListingPage, l: ParsedListing)
    requires ParseListing(page) == Ok(l)
    ensures forall k :: k in l.remainder ==> k in l.finalDict
    ensures IsItems(RemainderItems(l), l.finalDict)
  {
    ParseListingSpec(page, l);
    RemainderItemsEnumerate(l);
  }

  /** The geocoder's input: `address + ", " + city + " " + zip`. */
  function Full(row: Row): string {
    row.address + ", " + row.city + " " + row.zip
  }

  /** The full string opens with the address and ", ", ends with a space and
      the zip, and carries the city in between. */
  lemma FullShape(row: Row)
    ensures var f := Full(row);
      && |f| == |row.address| + |row.city| + |row.zip| + 3
      && f[..|row.address| + 2] == row.address + ", "
      && f[|row.address| + 2..|f| - |row.zip| - 1] == row.city
      && f[|f| - |row.zip| - 1..] == " " + row.zip
  {
  }

  /** When the address holds no ", " the address is the text before the
      first ", " of the full string. */
  lemma FullAddress(row: Row)
    requires !Contains(row.address, ", ")
    ensures Split(Full(row), ", ")[0] == row.address
  {
    var a := row.address;
    var b := row.city + " " + row.zip;
    var s := a + ", " + b;
    assert Full(row) == s;
    forall i | 0 <= i < |a|
      ensures !OccursAt(s, ", ", i)
    {
      if i + 2 <= |a| {
        assert s[i..i + 2] == a[i..i + 2];
        assert !OccursAt(a, ", ", i);
      } else {
        assert s[i + 1] == ',';
      }
    }
    SplitAtFirst(a, ", ", b);
  }
}

=== FILE: listing.dfy ===
/** The listing-page half of `waffles(state)` in webscraping/waffles.py
    (lines 24-79): the location blobs and the city of each multi-location
    entry become rows, and the sitewide city index is reduced to the cities
    that still need a detail-page fetch. BeautifulSoup's answers are inputs. */
module Listing {
  import opened Wrappers
  import opened PyStr
  import opened PyList

  /** A child of a class-less `<ul>`: a text node, or a tag with its number
      of contents and the `title` of its first `<a>` (None when it has no
      anchor or the anchor has no title). */
  datatype Node = TextNode(text: string) | TagNode(contentCount: nat, anchorTitle: Option<string>)
  {
    /** Python `len(node)`: characters of a text node, contents of a tag. */
    function Len(): nat {
      match this
      case TextNode(t) => |t|
      case TagNode(n, _) => n
    }
  }

  /** One `<ul>` without a class: its descendant text nodes in document
      order, and its direct children. */
  datatype EntryList = EntryList(texts: seq<string>, children: seq<Node>)

  /** A state's listing page as far as the scraper reads it: the class-less
      lists, and the `title` of every `<a>` in the `list-unstyled-links`
      list (None when that list is absent, a None title for an anchor that
      has no title). */
  datatype ListingPage = ListingPage(entryLists: seq<EntryList>, indexLinks: Option<seq<Option<string>>>)

  /** One row of the state table, keyed by the DataFrame's column names. */
  datatype Row = Row(raw: string, city: string, address: string, zip: string)

  /** The exceptions the scraper lets escape. */
  datatype ParseError =
    | NoAnchorTitle                            // `y[i].a['title']` on a node with no titled anchor
    | NoInMarker(title: string)                // `.split(" in ")[1]` raises IndexError
    | ColumnLengths(raw: nat, cities: nat)     // DataFrame columns of unequal length
    | NoCityIndex                              // the `list-unstyled-links` list is absent
    | IndexLinkWithoutTitle                    // `item['title']` raises KeyError
    | DetailFieldMissing(city: string, field: string)
    | NoTabInDetail(city: string, field: string)

  /** What the listing page yields: the multi-location rows, the cities that
      need a detail page, and `finalDict` from city name to anchor title. */
  datatype ParsedListing = ParsedListing(rows: seq<Row>, remainder: seq<string>, finalDict: map<string, string>)

  const EntrySep: string := "\n\n\n"
  const AtMarker: string := " at "
  const InMarker: string := " in "
  const Dash: string := "-"
  const IndexSep: string := " - "

  function StripAll(xs: seq<string>): (r: seq<string>)
    ensures |r| == |xs| && forall i :: 0 <= i < |xs| ==> r[i] == Strip(xs[i])
  {
    seq(|xs|, i requires 0 <= i < |xs| => Strip(xs[i]))
  }

  /** `''.join(item.findAll(text=True))`. */
  function EntryText(e: EntryList): string {
    Join(e.texts, [])
  }

  /** The joined text of every list split on a blank-line run, chained. */
  function Pieces(lists: seq<EntryList>): (r: seq<string>)
    ensures |r| >= |lists|
    ensures forall i :: 0 <= i < |r| ==> !Contains(r[i], EntrySep)
  {
    if |lists| == 0 then []
    else Split(EntryText(lists[0]), EntrySep) + Pieces(lists[1..])
  }

  /** Cutting one list's text: the pieces joined back with the separator
      give the list's text. */
  lemma PiecesOfOne(e: EntryList)
    ensures Join(Pieces([e]), EntrySep) == EntryText(e)
  {
    assert [e][1..] == [];
    assert Pieces([e]) == Split(EntryText(e), EntrySep) + [];
    assert Split(EntryText(e), EntrySep) + [] == Split(EntryText(e), EntrySep);
  }

  /** The chain loses and adds nothing: the pieces of two runs of lists are
      the pieces of the first run followed by those of the second. */
  lemma {:induction false} PiecesAppend(a: seq<EntryList>, b: seq<EntryList>)
    ensures Pieces(a + b) == Pieces(a) + Pieces(b)
  {
    if |a| == 0 {
      assert a + b == b;
    } else {
      assert (a + b)[0] == a[0];
      assert (a + b)[1..] == a[1..] + b;
      PiecesAppend(a[1..], b);
    }
  }

  /** When no list's text holds a blank-line run, each list is one piece:
      its whole text. */
  lemma {:induction false} PiecesWhole(lists: seq<EntryList>)
    requires forall i :: 0 <= i < |lists| ==> !Contains(EntryText(lists[i]), EntrySep)
    ensures Pieces(lists) == seq(|lists|, i requires 0 <= i < |lists| => EntryText(lists[i]))
  {
    if |lists| > 0 {
      var t := EntryText(lists[0]);
      var p := Split(t, EntrySep);
      assert |p| == 1;
      assert p == [t];
      PiecesWhole(lists[1..]);
    }
  }

  /** The `addresses` list: one blob per piece. Each list yields at least
      one blob, no blob holds the separator, and no blob has whitespace at
      either end. */
  function Blobs(lists: seq<EntryList>): (r: seq<string>)
    ensures |r| == |Pieces(lists)| && |r| >= |lists|
    ensures forall i :: 0 <= i < |r| ==> !Contains(r[i], EntrySep) && IsStripped(r[i])
  {
    var p := Pieces(lists);
    var r := StripAll(p);
    forall i | 0 <= i < |r|
      ensures !Contains(r[i], EntrySep) && IsStripped(r[i])
    {
      StripKeepsAbsent(p[i], EntrySep);
    }
    r
  }

  /** Blob `i` is piece `i` of the chained texts, stripped. */
  lemma BlobsArePieces(lists: seq<EntryList>)
    ensures forall i :: 0 <= i < |Blobs(lists)| ==> Blobs(lists)[i] == Strip(Pieces(lists)[i])
  {
  }

  /** When no list's text holds a blank-line run, there is exactly one blob
      per list: its text, stripped. */
  lemma BlobsWhole(lists: seq<EntryList>)
    requires forall i :: 0 <= i < |lists| ==> !Contains(EntryText(lists[i]), EntrySep)
    ensures |Blobs(lists)| == |lists|
    ensures forall i :: 0 <= i < |lists| ==> Blobs(lists)[i] == Strip(EntryText(lists[i]))
  {
    PiecesWhole(lists);
    BlobsArePieces(lists);
  }

  /** The children of every class-less list, chained. */
  function Children(lists: seq<EntryList>): seq<Node> {
    if |lists| == 0 then [] else lists[0].children + Children(lists[1..])
  }

  /** Chaining children loses and adds nothing: one list gives its own
      children, and two runs of lists give the first run's children followed
      by the second's. */
  lemma {:induction false} ChildrenAppend(a: seq<EntryList>, b: seq<EntryList>)
    ensures |a| == 1 ==> Children(a) == a[0].children
    ensures Children(a + b) == Children(a) + Children(b)
  {
    if |a| == 0 {
      assert a + b == b;
    } else {
      assert (a + b)[0] == a[0];
      assert (a + b)[1..] == a[1..] + b;
      ChildrenAppend(a[1..], b);
      if |a| == 1 {
        assert a[1..] == [];
      }
    }
  }

  /** `[item for item in chainedList if len(item) > 1]`. */
  function Entries(nodes: seq<Node>): (r: seq<Node>)
    ensures forall i :: 0 <= i < |r| ==> r[i].Len() > 1
    ensures IsSubseq(r, nodes)
    ensures forall n: Node :: n.Len() > 1 ==> multiset(r)[n] == multiset(nodes)[n]
  {
    if |nodes| == 0 then []
    else
      assert nodes == [nodes[0]] + nodes[1..];
      var rest := Entries(nodes[1..]);
      if nodes[0].Len() > 1 then
        assert ([nodes[0]] + rest)[1..] == rest;
        [nodes[0]] + rest
      else rest
  }

  /** The address of a blob: `x[x.find(" at ") + 4:]`. */
  function Address(blob: string): string {
    Slice(blob, Find(blob, AtMarker) + |AtMarker|, |blob|)
  }

  /** The zip of a blob: `x[16:21]`. */
  function Zip(blob: string): string {
    Slice(blob, 16, 21)
  }

  /** The address is always a suffix of the blob: the text after the first
      " at " when there is one, and otherwise the blob without its first
      three characters (find returns -1, and -1 + 4 is 3). */
  lemma AddressSpec(blob: string)
    ensures |Address(blob)| <= |blob| && Address(blob) == blob[|blob| - |Address(blob)|..]
    ensures forall k :: OccursAt(blob, AtMarker, k) && (forall i :: 0 <= i < k ==> !OccursAt(blob, AtMarker, i)) ==>
                        Address(blob) == blob[k + 4..]
    ensures !Contains(blob, AtMarker) ==> Address(blob) == if |blob| <= 3 then [] else blob[3..]
  {
    var r := Address(blob);
    var a := Clamp(Find(blob, AtMarker) + 4, |blob|);
    assert r == blob[a..];
  }

  /** The zip is the clamped window 16..21: at most five characters, empty
      for a blob of 16 characters or fewer, and always taken from offset 16. */
  lemma ZipSpec(blob: string)
    ensures |Zip(blob)| == if |blob| <= 16 then 0 else if |blob| >= 21 then 5 else |blob| - 16
    ensures |blob| > 16 ==> Zip(blob) == blob[16..16 + |Zip(blob)|]
  {
  }

  /** The city of an anchor title: `title.split('-')[0].split(" in ")[1]`.
      A city holds neither a dash nor " in ". */
  function City(title: string): (r: Result<string, ParseError>)
    ensures r.Err? ==> r.error == NoInMarker(title)
    ensures r.Ok? ==> !Contains(r.value, Dash) && !Contains(r.value, InMarker)
  {
    var head := Split(title, Dash)[0];
    var parts := Split(head, InMarker);
    if |parts| < 2 then Err(NoInMarker(title))
    else
      SplitKeepsAbsent(head, InMarker, Dash);
      Ok(parts[1])
  }

  /** City extraction succeeds exactly when the part of the title before its
      first dash holds " in ", and then yields the text between the first
      " in " and the next one (or the end of that part). */
  lemma CitySpec(title: string)
    ensures var head := if Contains(title, Dash) then title[..Find(title, Dash)] else title;
      && (City(title).Ok? <==> Contains(head, InMarker))
      && (City(title).Ok? ==>
            var rest := head[Find(head, InMarker) + 4..];
            City(title).value == if Contains(rest, InMarker) then rest[..Find(rest, InMarker)] else rest)
  {
    SplitFirst(title, Dash);
    var head := Split(title, Dash)[0];
    SplitFirst(head, InMarker);
    if Contains(head, InMarker) {
      SplitFirst(head[Find(head, InMarker) + 4..], InMarker);
    }
  }

  /** The city of one entry node; a text node or a tag without a titled
      anchor fails. */
  function NodeCity(n: Node): Result<string, ParseError> {
    match n
    case TextNode(_) => Err(NoAnchorTitle)
    case TagNode(_, None) => Err(NoAnchorTitle)
    case TagNode(_, Some(t)) => City(t)
  }

  /** The `cities` loop: the city of every entry, failing at the first entry
      whose city cannot be extracted. */
  function EntryCities(entries: seq<Node>): Result<seq<string>, ParseError> {
    MapUntilError(entries, NodeCity)
  }

  /** What a read city list is: one city per entry, each entry a tag whose
      anchor has a title, and each city the one `City` extracts from that
      title. */
  lemma RowCities(entries: seq<Node>, cities: seq<string>)
    requires EntryCities(entries) == Ok(cities)
    ensures |cities| == |entries|
    ensures forall i :: 0 <= i < |entries| ==>
      entries[i].TagNode? && entries[i].anchorTitle.Some? && City(entries[i].anchorTitle.value) == Ok(cities[i])
  {
    forall i | 0 <= i < |entries|
      ensures entries[i].TagNode? && entries[i].anchorTitle.Some? && City(entries[i].anchorTitle.value) == Ok(cities[i])
    {
      assert NodeCity(entries[i]) == Ok(cities[i]);
    }
  }

  /** `item['title']` of one index anchor. */
  function TitleOf(link: Option<string>): Result<string, ParseError> {
    match link
    case None => Err(IndexLinkWithoutTitle)
    case Some(t) => Ok(t)
  }

  /** The titles of the index anchors, failing on the first anchor without one. */
  function IndexTitles(links: seq<Option<string>>): Result<seq<string>, ParseError> {
    MapUntilError(links, TitleOf)
  }

  /** The collected titles are exactly the titles of the index anchors, one
      per anchor and in anchor order. */
  lemma IndexTitlesIn(links: seq<Option<string>>, titles: seq<string>)
    requires IndexTitles(links) == Ok(titles)
    ensures |titles| == |links| && forall i :: 0 <= i < |links| ==> links[i] == Some(titles[i])
    ensures forall t :: t in titles <==> Some(t) in links
  {
    forall t | t in titles
      ensures Some(t) in links
    {
      var j :| 0 <= j < |titles| && titles[j] == t;
      assert TitleOf(links[j]) == Ok(titles[j]);
    }
    forall t | Some(t) in links
      ensures t in titles
    {
      var j :| 0 <= j < |links| && links[j] == Some(t);
      assert TitleOf(links[j]) == Ok(titles[j]);
    }
  }

  /** The city name of an index title: `x[16:x.find(" - ")]`. */
  function IndexName(title: string): string {
    Slice(title, 16, Find(title, IndexSep))
  }

  /** The index name is `title[16:k]`, k being the first " - " or, when there
      is none, the last character (find's -1 taken as a stop counts from the
      end); it is empty when 16 is not below k. */
  lemma IndexNameSpec(title: string)
    ensures var k := if Contains(title, IndexSep) then Find(title, IndexSep)
                     else if |title| == 0 then 0 else |title| - 1;
      IndexName(title) == if 16 < k then title[16..k] else []
  {
  }

  function IndexNames(titles: seq<string>): (r: seq<string>)
    ensures |r| == |titles| && forall i :: 0 <= i < |titles| ==> r[i] == IndexName(titles[i])
  {
    seq(|titles|, i requires 0 <= i < |titles| => IndexName(titles[i]))
  }

  /** `toRemove`: the de-duplicated cities, stripped. */
  function ToRemove(cities: seq<string>): (r: seq<string>)
    ensures forall x :: x in r <==> exists i :: 0 <= i < |cities| && Strip(cities[i]) == x
  {
    var d := Dedup(cities);
    var r := StripAll(d);
    forall x | x in r
      ensures exists i :: 0 <= i < |cities| && Strip(cities[i]) == x
    {
      var j :| 0 <= j < |r| && r[j] == x;
      assert d[j] in cities;
      var k :| 0 <= k < |cities| && cities[k] == d[j];
      assert Strip(cities[k]) == x;
    }
    forall i | 0 <= i < |cities|
      ensures Strip(cities[i]) in r
    {
      assert cities[i] in d;
      var j :| 0 <= j < |d| && d[j] == cities[i];
      assert r[j] == Strip(cities[i]);
    }
    r
  }

  /** `remainder`: the index names that are no extracted city once stripped,
      in index order and with their multiplicity. */
  function Remainder(names: seq<string>, cities: seq<string>): (r: seq<string>)
    ensures forall x :: x in r <==> x in names && forall i :: 0 <= i < |cities| ==> Strip(cities[i]) != x
    ensures IsSubseq(r, names)
    ensures forall x :: x in r ==> multiset(r)[x] == multiset(names)[x]
  {
    FilterOut(names, ToRemove(cities))
  }

  /** `finalDict`: the entries of `newDict` whose key is a remainder city. */
  function FinalDict(newDict: map<string, string>, remainder: seq<string>): map<string, string> {
    map k | k in newDict && k in remainder :: newDict[k]
  }

  /** The listing built from the blobs, the entry cities and the index
      titles once every lookup has succeeded. */
  function MakeListing(blobs: seq<string>, cities: seq<string>, titles: seq<string>): ParsedListing
    requires |blobs| == |cities|
  {
    var rows := seq(|blobs|, i requires 0 <= i < |blobs| =>
      Row(blobs[i], cities[i], Address(blobs[i]), Zip(blobs[i])));
    var allCities := Dedup(titles);
    var newList := IndexNames(allCities);
    var remainder := Remainder(newList, cities);
    var newDict := ZipToMap(newList, allCities);
    ParsedListing(rows, remainder, FinalDict(newDict, remainder))
  }

  /** Steps 2 and 3 of `waffles(state)`: the multi-location rows, the
      remainder and `finalDict`, or the first exception raised. */
  function ParseListing(page: ListingPage): Result<ParsedListing, ParseError> {
    var blobs := Blobs(page.entryLists);
    var cities := EntryCities(Entries(Children(page.entryLists)));
    if cities.Err? then Err(cities.error)
    else if |blobs| != |cities.value| then Err(ColumnLengths(|blobs|, |cities.value|))
    else if page.indexLinks.None? then Err(NoCityIndex)
    else
      var titles := IndexTitles(page.indexLinks.value);
      if titles.Err? then Err(titles.error)
      else Ok(MakeListing(blobs, cities.value, titles.value))
  }

  /** `finalDict` in terms of the index: its keys are exactly the `newDict`
      keys in the remainder, which are all the remainder cities, each keeping
      its `newDict` value; none of them is an extracted city once stripped,
      and each maps to
      the title paired with its last occurrence among the index names (a
      later pair overwrites an earlier one in `dict(zip(...))`). */
  lemma FinalDictSpec(names: seq<string>, titles: seq<string>, cities: seq<string>, rem: seq<string>,
                      fd: map<string, string>)
    requires |names| == |titles|
    requires rem == Remainder(names, cities)
    requires fd == FinalDict(ZipToMap(names, titles), rem)
    ensures forall k :: k in fd <==> k in rem
    ensures forall k :: k in fd <==> k in ZipToMap(names, titles) && k in rem
    ensures forall k :: k in fd ==> fd[k] == ZipToMap(names, titles)[k]
    ensures forall k :: k in fd ==> forall i :: 0 <= i < |cities| ==> Strip(cities[i]) != k
    ensures forall k :: k in names && (forall i :: 0 <= i < |cities| ==> Strip(cities[i]) != k) ==> k in fd
    ensures forall k :: k in fd ==>
      exists i :: 0 <= i < |names| && names[i] == k && LastOf(names, i) && titles[i] == fd[k]
  {
    forall k | k in fd
      ensures exists i :: 0 <= i < |names| && names[i] == k && LastOf(names, i) && titles[i] == fd[k]
    {
      ZipLast(names, titles, k);
    }
  }

  /** The listing's contents: one row per blob carrying the blob, its
      address, its zip and its city; `finalDict` keyed by exactly the
      remainder cities, each mapped to an index title whose trimmed name is
      that city, and none of them a row city once stripped. */
  lemma MakeListingSpec(blobs: seq<string>, cities: seq<string>, titles: seq<string>, l: ParsedListing)
    requires |blobs| == |cities| && MakeListing(blobs, cities, titles) == l
    ensures |l.rows| == |blobs|
    ensures forall i :: 0 <= i < |l.rows| ==>
      l.rows[i] == Row(blobs[i], cities[i], Address(blobs[i]), Zip(blobs[i]))
    ensures forall k :: k in l.finalDict <==> k in l.remainder
    ensures forall k :: k in l.finalDict ==>
      && l.finalDict[k] in titles
      && IndexName(l.finalDict[k]) == k
      && forall i :: 0 <= i < |l.rows| ==> Strip(l.rows[i].city) != k
    ensures forall t :: t in titles && (forall i :: 0 <= i < |cities| ==> Strip(cities[i]) != IndexName(t)) ==>
      IndexName(t) in l.finalDict
  {
    var allCities := Dedup(titles);
    var names := IndexNames(allCities);
    assert l.remainder == Remainder(names, cities);
    assert l.finalDict == FinalDict(ZipToMap(names, allCities), l.remainder);
    FinalDictSpec(names, allCities, cities, l.remainder, l.finalDict);
    forall k | k in l.finalDict
      ensures l.finalDict[k] in titles && IndexName(l.finalDict[k]) == k
    {
      var i :| 0 <= i < |names| && names[i] == k && LastOf(names, i) && allCities[i] == l.finalDict[k];
      assert allCities[i] in titles;
    }
    IndexNamesCover(titles, names, cities, l.finalDict);
  }

  /** Which title a `finalDict` key maps to: among the de-duplicated
      titles, the last one whose name is the key, since `dict(zip(...))`
      keeps the last pair of each name. That title picks the detail page. */
  lemma MakeListingPicks(blobs: seq<string>, cities: seq<string>, titles: seq<string>, d: seq<string>, l: ParsedListing)
    requires |blobs| == |cities| && MakeListing(blobs, cities, titles) == l
    requires d == Dedup(titles)
    ensures forall k :: k in l.finalDict ==>
      exists i :: 0 <= i < |d| && d[i] == l.finalDict[k] && IndexName(d[i]) == k && LastNamed(d, i)
  {
    var names := IndexNames(d);
    assert l.finalDict == FinalDict(ZipToMap(names, d), l.remainder);
    FinalDictPicks(d, names, l.remainder, l.finalDict);
  }

  /** No title after position `i` of `d` has the name of title `i`. */
  predicate LastNamed(d: seq<string>, i: int)
    requires 0 <= i < |d|
  {
    forall j :: i < j < |d| ==> IndexName(d[j]) != IndexName(d[i])
  }

  /** Each key of `finalDict` maps to the last title of `d` with that name. */
  lemma FinalDictPicks(d: seq<string>, names: seq<string>, rem: seq<string>, fd: map<string, string>)
    requires names == IndexNames(d)
    requires fd == FinalDict(ZipToMap(names, d), rem)
    ensures forall k :: k in fd ==>
      exists i :: 0 <= i < |d| && d[i] == fd[k] && IndexName(d[i]) == k && LastNamed(d, i)
  {
    forall k | k in fd
      ensures exists i :: 0 <= i < |d| && d[i] == fd[k] && IndexName(d[i]) == k && LastNamed(d, i)
    {
      ZipLast(names, d, k);
      var i :| 0 <= i < |names| && names[i] == k && LastOf(names, i) && d[i] == ZipToMap(names, d)[k];
      LastName(d, names, i);
    }
  }

  /** The last position of a name among the names of `d` is the last title
      of `d` with that name. */
  lemma LastName(d: seq<string>, names: seq<string>, i: int)
    requires names == IndexNames(d) && 0 <= i < |names| && LastOf(names, i)
    ensures LastNamed(d, i)
  {
    forall j | i < j < |d|
      ensures IndexName(d[j]) != IndexName(d[i])
    {
      assert names[j] != names[i];
    }
  }

  /** Every title's name is among the names of the de-duplicated titles, so
      a property of all such names that avoid the cities holds of every
      title's name that avoids them. */
  lemma IndexNamesCover(titles: seq<string>, names: seq<string>, cities: seq<string>, fd: map<string, string>)
    requires names == IndexNames(Dedup(titles))
    requires forall k :: k in names && (forall i :: 0 <= i < |cities| ==> Strip(cities[i]) != k) ==> k in fd
    ensures forall t :: t in titles && (forall i :: 0 <= i < |cities| ==> Strip(cities[i]) != IndexName(t)) ==>
      IndexName(t) in fd
  {
    forall t | t in titles
      ensures IndexName(t) in names
    {
      var d := Dedup(titles);
      var j :| 0 <= j < |d| && d[j] == t;
      assert names[j] == IndexName(t);
    }
  }

  /** A parse fails exactly when an entry has no city, the blob and entry
      counts differ, the index list is absent, or an index anchor has no title. */
  lemma ParseListingOk(page: ListingPage)
    ensures var blobs := Blobs(page.entryLists);
      var entries := Entries(Children(page.entryLists));
      ParseListing(page).Ok? <==>
        && (forall i :: 0 <= i < |entries| ==> NodeCity(entries[i]).Ok?)
        && |blobs| == |entries|
        && page.indexLinks.Some?
        && (forall i :: 0 <= i < |page.indexLinks.value| ==> page.indexLinks.value[i].Some?)
  {
    var entries := Entries(Children(page.entryLists));
    var cities := EntryCities(entries);
    EntryCitiesOk(entries);
    if cities.Ok? && |Blobs(page.entryLists)| == |cities.value| && page.indexLinks.Some? {
      IndexTitlesOk(page.indexLinks.value);
    }
  }

  /** The entry cities are read exactly when every entry has a city, one per
      entry. */
  lemma EntryCitiesOk(entries: seq<Node>)
    ensures EntryCities(entries).Ok? <==> forall i :: 0 <= i < |entries| ==> NodeCity(entries[i]).Ok?
    ensures EntryCities(entries).Ok? ==> |EntryCities(entries).value| == |entries|
  {
  }

  /** The index titles are read exactly when every index anchor has one. */
  lemma IndexTitlesOk(links: seq<Option<string>>)
    ensures IndexTitles(links).Ok? <==> forall i :: 0 <= i < |links| ==> links[i].Some?
  {
    assert forall i :: 0 <= i < |links| ==> (TitleOf(links[i]).Ok? <==> links[i].Some?);
  }

  /** What a successful parse promises: one row per blob, as many blobs as
      entry nodes, each row carrying its blob, the blob's address and zip,
      and its entry's city; `finalDict` keyed by exactly the remainder
      cities, each mapped to the title of an index anchor whose trimmed name
      is that city, and none of them a row city once stripped. */
  lemma ParseListingSpec(page: ListingPage, l: ParsedListing)
    requires ParseListing(page) == Ok(l)
    ensures var blobs := Blobs(page.entryLists);
      var entries := Entries(Children(page.entryLists));
      && |l.rows| == |blobs| == |entries|
      && (forall i :: 0 <= i < |l.rows| ==>
            && l.rows[i].raw == blobs[i]
            && l.rows[i].address == Address(blobs[i])
            && l.rows[i].zip == Zip(blobs[i])
            && NodeCity(entries[i]) == Ok(l.rows[i].city))
    ensures var entries := Entries(Children(page.entryLists));
      forall i :: 0 <= i < |l.rows| ==>
        && entries[i].TagNode? && entries[i].anchorTitle.Some?
        && City(entries[i].anchorTitle.value) == Ok(l.rows[i].city)
    ensures forall k :: k in l.finalDict <==> k in l.remainder
    ensures forall k :: k in l.finalDict ==>
      && Some(l.finalDict[k]) in page.indexLinks.value
      && IndexName(l.finalDict[k]) == k
      && forall i :: 0 <= i < |l.rows| ==> Strip(l.rows[i].city) != k
    ensures forall t ::
      Some(t) in page.indexLinks.value && (forall i :: 0 <= i < |l.rows| ==> Strip(l.rows[i].city) != IndexName(t)) ==>
        IndexName(t) in l.finalDict
  {
    var blobs := Blobs(page.entryLists);
    var cities := EntryCities(Entries(Children(page.entryLists))).value;
    var links := page.indexLinks.value;
    var titles := IndexTitles(links).value;
    assert l == MakeListing(blobs, cities, titles);
    MakeListingSpec(blobs, cities, titles, l);
    RowCities(Entries(Children(page.entryLists)), cities);
    IndexTitlesIn(links, titles);
    CoverAnchors(links, titles, cities, l);
  }

  /** Which anchor title a `finalDict` key maps to after a successful parse:
      the last title with that name among the index titles de-duplicated in
      first-seen order. */
  lemma ParseListingPicks(page: ListingPage, l: ParsedListing, titles: seq<string>, d: seq<string>)
    requires ParseListing(page) == Ok(l)
    requires page.indexLinks.Some? && IndexTitles(page.indexLinks.value) == Ok(titles)
    requires d == Dedup(titles)
    ensures forall k :: k in l.finalDict ==>
      exists i :: 0 <= i < |d| && d[i] == l.finalDict[k] && IndexName(d[i]) == k && LastNamed(d, i)
  {
    var blobs := Blobs(page.entryLists);
    var cities := EntryCities(Entries(Children(page.entryLists))).value;
    assert l == MakeListing(blobs, cities, titles);
    MakeListingPicks(blobs, cities, titles, d, l);
  }

  /** The remainder cover restated over the index anchors and the row
      cities, which are exactly the titles and the entry cities. */
  lemma CoverAnchors(links: seq<Option<string>>, titles: seq<string>, cities: seq<string>, l: ParsedListing)
    requires forall t :: t in titles <==> Some(t) in links
    requires |l.rows| == |cities| && forall i :: 0 <= i < |l.rows| ==> l.rows[i].city == cities[i]
    requires forall t :: t in titles && (forall i :: 0 <= i < |cities| ==> Strip(cities[i]) != IndexName(t)) ==>
      IndexName(t) in l.finalDict
    ensures forall t ::
      Some(t) in links && (forall i :: 0 <= i < |l.rows| ==> Strip(l.rows[i].city) != IndexName(t)) ==>
        IndexName(t) in l.finalDict
  {
  }
}

=== FILE: pylist.dfy ===
/** The Python 2 list idioms the scraper relies on: first-seen
    de-duplication, filtering by non-membership, building a dict with
    `dict(zip(keys, values))` and iterating a dict's items. */
module PyList {

  predicate NoDup<T(==)>(xs: seq<T>) {
    forall i, j :: 0 <= i < j < |xs| ==> xs[i] != xs[j]
  }

  /** `a` can be obtained from `b` by deleting elements. */
  predicate IsSubseq<T(==)>(a: seq<T>, b: seq<T>)
    decreases |b|
  {
    if |a| == 0 then true
    else if |b| == 0 then false
    else (a[0] == b[0] && IsSubseq(a[1..], b[1..])) || IsSubseq(a, b[1..])
  }

  /** The position of the first occurrence of `x` in `xs`. */
  function FirstIndex<T(==)>(xs: seq<T>, x: T): (r: nat)
    requires x in xs
    ensures r < |xs| && xs[r] == x
    ensures forall j :: 0 <= j < r ==> xs[j] != x
  {
    if xs[0] == x then 0 else 1 + FirstIndex(xs[1..], x)
  }

  /** What `for x in xs: if x not in out: out.append(x)` leaves in `out`. */
  function Dedup<T(==,!new)>(xs: seq<T>): (r: seq<T>)
    ensures NoDup(r)
    ensures forall x :: x in r <==> x in xs
    ensures |r| <= |xs|
  {
    if |xs| == 0 then []
    else
      var p := xs[..|xs| - 1];
      var x := xs[|xs| - 1];
      assert xs == p + [x];
      var d := Dedup(p);
      if x in d then d else d + [x]
  }

  /** The loop itself, building the de-duplicated list one element at a time. */
  method DedupLoop<T(==,!new)>(xs: seq<T>) returns (out: seq<T>)
    ensures out == Dedup(xs)
  {
    out := [];
    var i := 0;
    while i < |xs|
      invariant 0 <= i <= |xs|
      invariant out == Dedup(xs[..i])
    {
      assert xs[..i + 1][..i] == xs[..i];
      if xs[i] !in out {
        out := out + [xs[i]];
      }
      i := i + 1;
    }
    assert xs[..|xs|] == xs;
  }

  lemma {:induction false} FirstIndexExtend<T>(p: seq<T>, x: T, y: T)
    requires y in p
    ensures FirstIndex(p + [x], y) == FirstIndex(p, y)
  {
    if p[0] != y {
      assert (p + [x])[1..] == p[1..] + [x];
      FirstIndexExtend(p[1..], x, y);
    }
  }

  /** De-duplication keeps every element at its first occurrence: the kept
      elements appear in the order in which they are first seen. */
  lemma {:induction false} DedupOrder<T(!new)>(xs: seq<T>)
    ensures forall i, j :: 0 <= i < j < |Dedup(xs)| ==>
      FirstIndex(xs, Dedup(xs)[i]) < FirstIndex(xs, Dedup(xs)[j])
  {
    if |xs| > 0 {
      var p := xs[..|xs| - 1];
      var x := xs[|xs| - 1];
      assert xs == p + [x];
      DedupOrder(p);
      var dp := Dedup(p);
      forall y | y in dp
        ensures FirstIndex(xs, y) == FirstIndex(p, y)
      {
        FirstIndexExtend(p, x, y);
      }
      if x !in dp {
        assert FirstIndex(xs, x) == |p|;
      }
    }
  }

  /** `[x for x in xs if x not in excl]`. */
  function FilterOut<T(==,!new)>(xs: seq<T>, excl: seq<T>): (r: seq<T>)
    ensures forall x :: x in r <==> x in xs && x !in excl
    ensures IsSubseq(r, xs)
    ensures forall x :: x !in excl ==> multiset(r)[x] == multiset(xs)[x]
    ensures forall x :: x in excl ==> multiset(r)[x] == 0
  {
    if |xs| == 0 then []
    else
      assert xs == [xs[0]] + xs[1..];
      var rest := FilterOut(xs[1..], excl);
      if xs[0] in excl then rest
      else
        assert ([xs[0]] + rest)[1..] == rest;
        [xs[0]] + rest
  }

  /** `dict(zip(ks, vs))` for lists of equal length: a later pair
      overwrites an earlier one with the same key. */
  function ZipToMap<K(==,!new), V>(ks: seq<K>, vs: seq<V>): (m: map<K, V>)
    requires |ks| == |vs|
    ensures forall k :: k in m <==> k in ks
    ensures forall i :: 0 <= i < |ks| && LastOf(ks, i) ==> m[ks[i]] == vs[i]
  {
    if |ks| == 0 then map[]
    else
      var n := |ks|;
      var p := ks[..n - 1];
      assert ks == p + [ks[n - 1]];
      var m' := ZipToMap(p, vs[..n - 1]);
      var m := m'[ks[n - 1] := vs[n - 1]];
      forall i | 0 <= i < n && LastOf(ks, i)
        ensures m[ks[i]] == vs[i]
      {
        if i < n - 1 {
          assert ks[n - 1] != ks[i];
          assert LastOf(p, i);
          assert m'[p[i]] == vs[..n - 1][i];
        }
      }
      m
  }

  /** Position `i` holds the last occurrence of `ks[i]`. */
  predicate LastOf<K(==)>(ks: seq<K>, i: int)
    requires 0 <= i < |ks|
  {
    forall j :: i < j < |ks| ==> ks[j] != ks[i]
  }

  /** The position of the last occurrence of `x` in `xs`. */
  function LastIndex<T(==)>(xs: seq<T>, x: T): (r: nat)
    requires x in xs
    ensures r < |xs| && xs[r] == x && LastOf(xs, r)
  {
    if xs[|xs| - 1] == x then |xs| - 1
    else
      var p := xs[..|xs| - 1];
      assert x in p by { assert xs == p + [xs[|xs| - 1]]; }
      LastIndex(p, x)
  }

  /** A key of `dict(zip(ks, vs))` maps to the value paired with its last
      occurrence in `ks`. */
  lemma ZipLast<K(!new), V>(ks: seq<K>, vs: seq<V>, k: K)
    requires |ks| == |vs| && k in ks
    ensures exists i :: 0 <= i < |ks| && ks[i] == k && LastOf(ks, i) && vs[i] == ZipToMap(ks, vs)[k]
  {
    var i := LastIndex(ks, k);
    assert ZipToMap(ks, vs)[ks[i]] == vs[i];
  }

  /** Iterating `m` visits `order`: every key exactly once. */
  predicate Enumerates<K(==), V>(order: seq<K>, m: map<K, V>) {
    NoDup(order) && (forall i :: 0 <= i < |order| ==> order[i] in m) && (forall k :: k in m ==> k in order)
  }

  /** Visiting the first key leaves an enumeration of the rest of the map. */
  lemma EnumerationRest<K, V>(order: seq<K>, m: map<K, V>)
    requires Enumerates(order, m) && |order| > 0
    ensures Enumerates(order[1..], m - {order[0]})
  {
    var m' := m - {order[0]};
    forall j | 0 <= j < |order[1..]|
      ensures order[1..][j] in m'
    {
      assert order[1..][j] == order[j + 1] != order[0];
    }
    forall x | x in m'
      ensures x in order[1..]
    {
      var j :| 0 <= j < |order| && order[j] == x;
      assert j != 0;
      assert order[1..][j - 1] == x;
    }
  }

  /** An enumeration of a map is as long as the map is large. */
  lemma {:induction false} EnumerationLength<K, V>(order: seq<K>, m: map<K, V>)
    requires Enumerates(order, m)
    ensures |order| == |m|
  {
    if |order| > 0 {
      var k := order[0];
      var m' := m - {k};
      assert m'.Keys == m.Keys - {k};
      EnumerationRest(order, m);
      EnumerationLength(order[1..], m');
    } else {
      assert m.Keys == {};
    }
  }

  function ItemKeys<K, V>(items: seq<(K, V)>): (r: seq<K>)
    ensures |r| == |items| && forall i :: 0 <= i < |items| ==> r[i] == items[i].0
  {
    seq(|items|, i requires 0 <= i < |items| => items[i].0)
  }

  /** `items` is what `m.iteritems()` yields, in some order: every entry of
      `m` exactly once. */
  predicate IsItems<K(==), V(==)>(items: seq<(K, V)>, m: map<K, V>) {
    && Enumerates(ItemKeys(items), m)
    && forall i :: 0 <= i < |items| ==> m[items[i].0] == items[i].1
  }

  /** Iterating a map's items visits as many items as the map has keys. */
  lemma ItemsLength<K, V>(items: seq<(K, V)>, m: map<K, V>)
    requires IsItems(items, m)
    ensures |items| == |m|
  {
    EnumerationLength(ItemKeys(items), m);
  }

  /** A property holds of every item exactly when it holds of every entry
      of the map. */
  lemma ItemsAll<K, V>(items: seq<(K, V)>, m: map<K, V>, p: (K, V) -> bool)
    requires IsItems(items, m)
    ensures (forall i :: 0 <= i < |items| ==> p(items[i].0, items[i].1)) <==> (forall k :: k in m ==> p(k, m[k]))
  {
    var keys := ItemKeys(items);
    if forall i :: 0 <= i < |items| ==> p(items[i].0, items[i].1) {
      forall k | k in m
        ensures p(k, m[k])
      {
        var i :| 0 <= i < |keys| && keys[i] == k;
      }
    }
    if forall k :: k in m ==> p(k, m[k]) {
      forall i | 0 <= i < |items|
        ensures p(items[i].0, items[i].1)
      {
        assert keys[i] in m;
      }
    }
  }

  /** Items that pair up with rows by key give one row per key of the map,
      no two rows for the same key. */
  lemma ItemsOnePerKey<K, V, R>(items: seq<(K, V)>, m: map<K, V>, rows: seq<R>, key: R -> K)
    requires IsItems(items, m)
    requires |rows| == |items| && forall i :: 0 <= i < |rows| ==> key(rows[i]) == items[i].0
    ensures |rows| == |m|
    ensures forall i :: 0 <= i < |rows| ==> key(rows[i]) in m
    ensures forall k :: k in m ==> exists i :: 0 <= i < |rows| && key(rows[i]) == k
    ensures forall i, j :: 0 <= i < j < |rows| ==> key(rows[i]) != key(rows[j])
  {
    ItemsLength(items, m);
    var keys := ItemKeys(items);
    assert forall i :: 0 <= i < |items| ==> keys[i] in m;
    forall k | k in m
      ensures exists i :: 0 <= i < |rows| && key(rows[i]) == k
    {
      var j :| 0 <= j < |keys| && keys[j] == k;
      assert key(rows[j]) == k;
    }
    assert forall i, j :: 0 <= i < j < |rows| ==> keys[i] != keys[j];
  }
}

=== FILE: pystr.dfy ===
/** The Python 2 string operations the scraper relies on, over `seq<char>`:
    `find`, slicing with clamped and negative bounds, `split` on a non-empty
    separator, `join`, `strip` and `replace`. */
module PyStr {

  /** The characters Python 2's `unicode.isspace` accepts: the ones `strip()` removes. */
  const SpaceChars: set<char> := {
    '\t', '\n', '\U{000B}', '\U{000C}', '\r', '\U{001C}', '\U{001D}', '\U{001E}', '\U{001F}', ' ',
    '\U{0085}', '\U{00A0}', '\U{1680}', '\U{180E}',
    '\U{2000}', '\U{2001}', '\U{2002}', '\U{2003}', '\U{2004}', '\U{2005}', '\U{2006}',
    '\U{2007}', '\U{2008}', '\U{2009}', '\U{200A}',
    '\U{2028}', '\U{2029}', '\U{202F}', '\U{205F}', '\U{3000}'
  }

  predicate IsSpace(c: char) {
    c in SpaceChars
  }

  /** The whitespace `strip` removes from a Python 2 byte string. */
  const ByteSpaceChars: set<char> := {'\t', '\n', '\U{000B}', '\U{000C}', '\r', ' '}

  /** On printable ASCII the unicode whitespace set and the byte-string one
      agree: the space is the only whitespace character in that range. */
  lemma PrintableSpace(c: char)
    requires ' ' <= c <= '~'
    ensures IsSpace(c) <==> c in ByteSpaceChars
    ensures IsSpace(c) <==> c == ' '
  {
  }

  /** `t` occurs in `s` starting at position `i`. */
  predicate OccursAt(s: string, t: string, i: int) {
    0 <= i && i + |t| <= |s| && s[i..i + |t|] == t
  }

  predicate Contains(s: string, t: string) {
    exists i :: 0 <= i <= |s| && OccursAt(s, t, i)
  }

  /** The first occurrence of `t` in `s` at or after `from`, or -1. */
  function FindFrom(s: string, t: string, from: nat): (r: int)
    ensures r == -1 || (from <= r && OccursAt(s, t, r))
    ensures r == -1 ==> forall i :: from <= i ==> !OccursAt(s, t, i)
    ensures r >= 0 ==> forall i :: from <= i < r ==> !OccursAt(s, t, i)
    decreases |s| - from
  {
    if from + |t| > |s| then -1
    else if s[from..from + |t|] == t then from
    else FindFrom(s, t, from + 1)
  }

  /** Python `s.find(t)`: the index of the first occurrence, -1 when there is none. */
  function Find(s: string, t: string): (r: int)
    ensures r >= 0 <==> Contains(s, t)
    ensures r < 0 ==> r == -1
    ensures r >= 0 ==> OccursAt(s, t, r) && forall i :: 0 <= i < r ==> !OccursAt(s, t, i)
  {
    FindFrom(s, t, 0)
  }

  /** Python's normalisation of one slice bound against a length `n`:
      a negative bound counts from the end, and the result is clamped to 0..n. */
  function Clamp(i: int, n: nat): (r: nat)
    ensures r <= n
    ensures 0 <= i <= n ==> r == i
    ensures i > n ==> r == n
    ensures i < 0 && i + n >= 0 ==> r == i + n
    ensures i + n < 0 ==> r == 0
  {
    if i < 0 then (if i + n < 0 then 0 else i + n)
    else if i > n then n else i
  }

  /** Python `s[start:stop]`: the characters at the positions k with
      Clamp(start) <= k < Clamp(stop), empty when the bounds cross. */
  function Slice(s: string, start: int, stop: int): (r: string)
    ensures |r| == if Clamp(start, |s|) < Clamp(stop, |s|) then Clamp(stop, |s|) - Clamp(start, |s|) else 0
    ensures forall k :: 0 <= k < |r| ==> r[k] == s[Clamp(start, |s|) + k]
  {
    var a := Clamp(start, |s|);
    var b := Clamp(stop, |s|);
    if a < b then s[a..b] else []
  }

  /** Python `sep.join(pieces)`. */
  function Join(pieces: seq<string>, sep: string): string
  {
    if |pieces| == 0 then []
    else if |pieces| == 1 then pieces[0]
    else pieces[0] + sep + Join(pieces[1..], sep)
  }

  /** A piece cut out of `s` at its first occurrence of `sep` holds no `sep`. */
  lemma PrefixBeforeFirst(s: string, sep: string, k: nat)
    requires |sep| > 0 && OccursAt(s, sep, k)
    requires forall i :: 0 <= i < k ==> !OccursAt(s, sep, i)
    ensures !Contains(s[..k], sep)
  {
    forall i | OccursAt(s[..k], sep, i)
      ensures false
    {
      assert s[..k][i..i + |sep|] == s[i..i + |sep|];
      assert OccursAt(s, sep, i);
    }
  }

  /** Python `s.split(sep)` for a non-empty separator: the pieces between
      successive non-overlapping occurrences of `sep`, scanned left to right. */
  function Split(s: string, sep: string): (r: seq<string>)
    requires |sep| > 0
    ensures |r| >= 1
    ensures Join(r, sep) == s
    ensures forall i :: 0 <= i < |r| ==> !Contains(r[i], sep)
    ensures |r| >= 2 <==> Contains(s, sep)
    decreases |s|
  {
    var k := Find(s, sep);
    if k < 0 then [s]
    else
      PrefixBeforeFirst(s, sep, k);
      var rest := Split(s[k + |sep|..], sep);
      assert s == s[..k] + sep + s[k + |sep|..] by {
        assert s[k..k + |sep|] == sep;
      }
      [s[..k]] + rest
  }

  /** Every piece but the last ends at the leftmost separator after it: the
      piece followed by `sep` holds no earlier start of `sep`. This is what
      fixes the cuts when `sep` can overlap itself. */
  lemma {:induction false} SplitLeftmost(s: string, sep: string)
    requires |sep| > 0
    ensures var r := Split(s, sep);
      forall i, j :: 0 <= i < |r| - 1 && 0 <= j < |r[i]| ==> !OccursAt(r[i] + sep, sep, j)
    decreases |s|
  {
    var k := Find(s, sep);
    if k >= 0 {
      var rest := s[k + |sep|..];
      SplitLeftmost(rest, sep);
      var r := Split(s, sep);
      assert r == [s[..k]] + Split(rest, sep);
      assert s[..k] + sep == s[..k + |sep|] by {
        assert s[k..k + |sep|] == sep;
      }
      forall j | 0 <= j < k
        ensures !OccursAt(s[..k] + sep, sep, j)
      {
        if OccursAt(s[..k] + sep, sep, j) {
          assert s[..k + |sep|][j..j + |sep|] == s[j..j + |sep|];
          assert OccursAt(s, sep, j);
          assert false;
        }
      }
      forall i, j | 0 <= i < |r| - 1 && 0 <= j < |r[i]|
        ensures !OccursAt(r[i] + sep, sep, j)
      {
        if i > 0 {
          assert r[i] == Split(rest, sep)[i - 1];
        }
      }
    }
  }

  /** `lstrip()`: drop the leading whitespace. */
  function LStrip(s: string): (r: string)
    ensures |r| <= |s| && r == s[|s| - |r|..]
    ensures forall k :: 0 <= k < |s| - |r| ==> IsSpace(s[k])
    ensures |r| > 0 ==> !IsSpace(r[0])
  {
    if |s| > 0 && IsSpace(s[0]) then
      var r := LStrip(s[1..]);
      assert forall k :: 1 <= k < |s| - |r| ==> s[k] == s[1..][k - 1];
      r
    else s
  }

  /** `rstrip()`: drop the trailing whitespace. */
  function RStrip(s: string): (r: string)
    ensures |r| <= |s| && r == s[..|r|]
    ensures forall k :: |r| <= k < |s| ==> IsSpace(s[k])
    ensures |r| > 0 ==> !IsSpace(r[|r| - 1])
  {
    if |s| > 0 && IsSpace(s[|s| - 1]) then
      var r := RStrip(s[..|s| - 1]);
      assert forall k :: |r| <= k < |s| - 1 ==> s[k] == s[..|s| - 1][k];
      r
    else s
  }

  /** No whitespace at either end. */
  predicate IsStripped(s: string) {
    |s| == 0 || (!IsSpace(s[0]) && !IsSpace(s[|s| - 1]))
  }

  /** `strip()`: a stretch of `s` with whitespace on neither end, everything
      outside it being whitespace. */
  function Strip(s: string): (r: string)
    ensures IsStripped(r)
    ensures |r| <= |s|
  {
    var l := LStrip(s);
    var r := RStrip(l);
    assert |r| > 0 ==> r[0] == l[0];
    r
  }

  predicate AllSpace(s: string) {
    forall k :: 0 <= k < |s| ==> IsSpace(s[k])
  }

  lemma {:induction false} LStripPadded(ws: string, t: string)
    requires AllSpace(ws)
    requires |t| == 0 || !IsSpace(t[0])
    ensures LStrip(ws + t) == t
    decreases |ws|
  {
    if |ws| > 0 {
      assert (ws + t)[1..] == ws[1..] + t;
      LStripPadded(ws[1..], t);
    } else {
      assert ws + t == t;
    }
  }

  lemma {:induction false} RStripPadded(t: string, ws: string)
    requires AllSpace(ws)
    requires |t| == 0 || !IsSpace(t[|t| - 1])
    ensures RStrip(t + ws) == t
    decreases |ws|
  {
    if |ws| > 0 {
      assert (t + ws)[..|t + ws| - 1] == t + ws[..|ws| - 1];
      RStripPadded(t, ws[..|ws| - 1]);
    } else {
      assert t + ws == t;
    }
  }

  /** `strip()` is determined by its result: whatever whitespace surrounds a
      text with non-blank ends, stripping gives back exactly that text. */
  lemma StripPadded(lead: string, t: string, trail: string)
    requires AllSpace(lead) && AllSpace(trail)
    requires IsStripped(t)
    ensures Strip(lead + t + trail) == t
  {
    if |t| == 0 {
      assert lead + t + trail == lead + trail;
      assert AllSpace(lead + trail);
      LStripPadded(lead + trail, []);
      assert lead + trail + [] == lead + trail;
      assert LStrip(lead + trail) == [];
    } else {
      assert lead + t + trail == lead + (t + trail);
      LStripPadded(lead, t + trail);
      RStripPadded(t, trail);
    }
  }

  /** Stripping twice is stripping once. */
  lemma StripIdempotent(s: string)
    ensures Strip(Strip(s)) == Strip(s)
  {
    var r := Strip(s);
    StripPadded([], r, []);
    assert [] + r + [] == r;
  }

  /** Splitting a text that holds no `t` gives pieces that hold no `t`. */
  lemma {:induction false} SplitKeepsAbsent(s: string, sep: string, t: string)
    requires |sep| > 0 && !Contains(s, t)
    ensures forall i :: 0 <= i < |Split(s, sep)| ==> !Contains(Split(s, sep)[i], t)
    decreases |s|
  {
    var k := Find(s, sep);
    if k >= 0 {
      var rest := s[k + |sep|..];
      InfixFree(s, 0, k, t);
      assert s[0..k] == s[..k];
      InfixFree(s, k + |sep|, |s|, t);
      assert s[k + |sep|..|s|] == rest;
      SplitKeepsAbsent(rest, sep, t);
      assert Split(s, sep) == [s[..k]] + Split(rest, sep);
    } else {
      assert Split(s, sep) == [s];
    }
  }

  /** Python `s.replace(target, repl)` for a non-empty `target`: every non-overlapping
      occurrence, scanned left to right, is replaced. */
  function Replace(s: string, target: string, repl: string): string
    requires |target| > 0
  {
    Join(Split(s, target), repl)
  }

  /** When nothing before the end of `a` starts an occurrence of `sep`,
      splitting `a + sep + b` cuts off exactly `a`. */
  lemma SplitAtFirst(a: string, sep: string, b: string)
    requires |sep| > 0
    requires forall i :: 0 <= i < |a| ==> !OccursAt(a + sep + b, sep, i)
    ensures Split(a + sep + b, sep) == [a] + Split(b, sep)
  {
    var s := a + sep + b;
    assert s[|a|..|a| + |sep|] == sep;
    assert OccursAt(s, sep, |a|);
    var k := Find(s, sep);
    assert k == |a|;
    assert s[..k] == a;
    assert s[k + |sep|..] == b;
  }

  /** A string that does not hold the first separator character is not split. */
  lemma SplitAbsent(s: string, sep: string)
    requires |sep| > 0 && sep[0] !in s
    ensures Split(s, sep) == [s]
  {
  }

  /** A stretch of a string free of `t` is free of `t` too. */
  lemma InfixFree(s: string, a: nat, b: nat, t: string)
    requires a <= b <= |s|
    requires !Contains(s, t)
    ensures !Contains(s[a..b], t)
  {
    forall i | 0 <= i <= b - a && OccursAt(s[a..b], t, i)
      ensures false
    {
      assert !OccursAt(s, t, a + i);
      assert forall k :: a + i <= k < a + i + |t| ==> s[k] == s[a..b][k - a];
    }
  }

  /** Stripping never creates an occurrence of `t`. */
  lemma StripKeepsAbsent(s: string, t: string)
    requires !Contains(s, t)
    ensures !Contains(Strip(s), t)
  {
    var l := LStrip(s);
    InfixFree(s, |s| - |l|, |s|, t);
    assert s[|s| - |l|..|s|] == l;
    InfixFree(l, 0, |RStrip(l)|, t);
  }

  /** The first piece of a split is the text before the first separator,
      and the second piece starts right after it. */
  lemma SplitFirst(s: string, sep: string)
    requires |sep| > 0
    ensures Split(s, sep)[0] == if Contains(s, sep) then s[..Find(s, sep)] else s
    ensures Contains(s, sep) ==> Split(s, sep)[1] == Split(s[Find(s, sep) + |sep|..], sep)[0]
  {
  }
}

=== FILE: resolver.dfy ===
/** The single-location half of `waffles(state)` in webscraping/waffles.py
    (lines 82-103): every `finalDict` city gets its address and zip from its
    own detail page. The fetch and the regular-expression rewrite of the
    stringified span contents are inputs. */
module Resolver {
  import opened Wrappers
  import opened PyStr
  import opened Listing

  /** A city's detail page as the scraper reads it: for the `address.street`
      and `address.postal_code` spans, the text of `str(span.contents)` after
      the newline-and-tabs rewrite, or None when the span is absent. */
  datatype DetailPage = DetailPage(street: Option<string>, postalCode: Option<string>)

  /** The two characters backslash and `t`: an escaped tab in a list repr. */
  const TabEscape: string := "\\t"
  /** The end of a one-string list repr. */
  const ListClose: string := "']"
  const SingleLoc: string := "single loc"
  const StreetField: string := "address.street"
  const PostalField: string := "address.postal_code"

  /** `text.split('\\t')[1].replace("']", "").strip()`, None where `[1]`
      raises IndexError. */
  function CleanField(text: string): (r: Option<string>)
    ensures r.Some? <==> Contains(text, TabEscape)
    ensures r.Some? ==> IsStripped(r.value)
  {
    var parts := Split(text, TabEscape);
    if |parts| < 2 then None else Some(Strip(Replace(parts[1], ListClose, [])))
  }

  /** Removing the list close from a text with no quote in it. */
  lemma RemoveListClose(v: string)
    requires '\'' !in v
    ensures Replace(v + ListClose, ListClose, []) == v
  {
    var t := v + ListClose + [];
    forall i | 0 <= i < |v|
      ensures !OccursAt(t, ListClose, i)
    {
      assert t[i] == v[i];
    }
    SplitAtFirst(v, ListClose, []);
    assert t == v + ListClose;
    SplitAbsent([], ListClose);
    var pieces := [v] + [[]];
    assert Split(v + ListClose, ListClose) == pieces;
    assert pieces[1..] == [[]];
    assert Join(pieces, []) == v + [] + [];
  }

  /** A text with no backslash before its first escaped tab splits there. */
  lemma SplitAtTab(lead: string, tail: string)
    requires '\\' !in lead && '\\' !in tail
    ensures Split(lead + TabEscape + tail, TabEscape) == [lead, tail]
  {
    var t := lead + TabEscape + tail;
    forall i | 0 <= i < |lead|
      ensures !OccursAt(t, TabEscape, i)
    {
      assert t[i] == lead[i];
    }
    SplitAtFirst(lead, TabEscape, tail);
    SplitAbsent(tail, TabEscape);
  }

  /** On the repr of a single text node, whatever precedes the first escaped
      tab, the cleanup recovers the node's text, stripped. */
  lemma CleanFieldOfRepr(lead: string, v: string)
    requires '\\' !in lead && '\\' !in v && '\'' !in v
    ensures CleanField(lead + TabEscape + v + ListClose) == Some(Strip(v))
  {
    assert lead + TabEscape + v + ListClose == lead + TabEscape + (v + ListClose);
    SplitAtTab(lead, v + ListClose);
    RemoveListClose(v);
  }

  /** One `finalDict` entry turned into a row, or the exception raised: a
      missing span, or a span text with no escaped tab. A row is a
      "single loc" row for the entry's own city with a stripped address and
      zip; an exception names the city it arose for. */
  function ResolveOne(city: string, page: DetailPage): (r: Result<Row, ParseError>)
    ensures r.Ok? ==>
      && r.value.raw == SingleLoc && r.value.city == city
      && IsStripped(r.value.address) && IsStripped(r.value.zip)
    ensures r.Err? ==> (r.error.DetailFieldMissing? || r.error.NoTabInDetail?) && r.error.city == city
  {
    if page.street.None? then Err(DetailFieldMissing(city, StreetField))
    else
      var address := CleanField(page.street.value);
      if address.None? then Err(NoTabInDetail(city, StreetField))
      else if page.postalCode.None? then Err(DetailFieldMissing(city, PostalField))
      else
        var zip := CleanField(page.postalCode.value);
        if zip.None? then Err(NoTabInDetail(city, PostalField))
        else Ok(Row(SingleLoc, city, address.value, zip.value))
  }

  /** A detail page yields a row exactly when both spans are present and
      each holds an escaped tab. */
  lemma ResolveOneOk(city: string, page: DetailPage)
    ensures ResolveOne(city, page).Ok? <==>
      && page.street.Some? && Contains(page.street.value, TabEscape)
      && page.postalCode.Some? && Contains(page.postalCode.value, TabEscape)
  {
  }

  /** A resolved row takes its address from the street span and its zip from
      the postal-code span, each cleaned the same way. */
  lemma ResolveOneFields(city: string, page: DetailPage)
    ensures var r := ResolveOne(city, page);
      r.Ok? ==>
        && page.street.Some? && page.postalCode.Some?
        && r.value.address == CleanField(page.street.value).value
        && r.value.zip == CleanField(page.postalCode.value).value
  {
  }

  /** The `restaurantList` loop over `finalDict.iteritems()`: each (city,
      title) pair fetched through `fetch` and turned into a row; the first
      failure ends it. A built list holds one "single loc" row per item,
      in item order. */
  function ResolveSingles(items: seq<(string, string)>, fetch: string -> DetailPage): (r: Result<seq<Row>, ParseError>)
    ensures r.Ok? ==>
      && |r.value| == |items|
      && forall i :: 0 <= i < |items| ==> r.value[i].raw == SingleLoc && r.value[i].city == items[i].0
  {
    if |items| == 0 then Ok([])
    else
      var one := ResolveOne(items[0].0, fetch(items[0].1));
      if one.Err? then Err(one.error)
      else
        var rest := ResolveSingles(items[1..], fetch);
        if rest.Err? then Err(rest.error)
        else
          Ok([one.value] + rest.value)
  }

  /** A failed loop raises the exception of the first item that does not
      resolve; every earlier item resolves. */
  lemma {:induction false} ResolveSinglesErr(items: seq<(string, string)>, fetch: string -> DetailPage)
    ensures var r := ResolveSingles(items, fetch);
      r.Err? ==>
        exists i :: 0 <= i < |items| && ResolveOne(items[i].0, fetch(items[i].1)) == Err(r.error) &&
          (forall j :: 0 <= j < i ==> ResolveOne(items[j].0, fetch(items[j].1)).Ok?)
  {
    if |items| > 0 {
      var r := ResolveSingles(items, fetch);
      var one := ResolveOne(items[0].0, fetch(items[0].1));
      var rest := ResolveSingles(items[1..], fetch);
      ResolveSinglesErr(items[1..], fetch);
      if one.Err? {
        assert ResolveOne(items[0].0, fetch(items[0].1)) == Err(r.error);
      } else if rest.Err? {
        assert r == Err(rest.error);
        var tail := items[1..];
        var i :| 0 <= i < |tail| && ResolveOne(tail[i].0, fetch(tail[i].1)) == Err(rest.error) &&
          (forall j :: 0 <= j < i ==> ResolveOne(tail[j].0, fetch(tail[j].1)).Ok?);
        assert items[i + 1] == tail[i];
        assert forall j :: 0 < j < i + 1 ==> items[j] == tail[j - 1];
      }
    }
  }

  /** The list is built exactly when every item resolves, and then each row
      is the one its own item resolves to. */
  lemma {:induction false} ResolveSinglesSpec(items: seq<(string, string)>, fetch: string -> DetailPage)
    ensures var r := ResolveSingles(items, fetch);
      && (r.Ok? <==> forall i :: 0 <= i < |items| ==> ResolveOne(items[i].0, fetch(items[i].1)).Ok?)
      && (r.Ok? ==> forall i :: 0 <= i < |items| ==> ResolveOne(items[i].0, fetch(items[i].1)) == Ok(r.value[i]))
  {
    if |items| > 0 {
      var r := ResolveSingles(items, fetch);
      var one := ResolveOne(items[0].0, fetch(items[0].1));
      var rest := ResolveSingles(items[1..], fetch);
      ResolveSinglesSpec(items[1..], fetch);
      if r.Ok? {
        assert one.Ok? && rest.Ok? && r.value == [one.value] + rest.value;
        forall i | 0 <= i < |items|
          ensures ResolveOne(items[i].0, fetch(items[i].1)) == Ok(r.value[i])
        {
          if i > 0 {
            assert items[i] == items[1..][i - 1];
            assert r.value[i] == rest.value[i - 1];
          }
        }
      } else if one.Ok? {
        var j :| 0 <= j < |items| - 1 && !ResolveOne(items[1..][j].0, fetch(items[1..][j].1)).Ok?;
        assert items[j + 1] == items[1..][j];
      }
    }
  }
}

=== FILE: wrappers.dfy ===
/** Option and Result, the shapes the model uses for Python's None and for
    the exceptions the scraper lets escape. */
module Wrappers {

  datatype Option<+T> = None | Some(value: T)

  /** `Ok` carries a value; `Err` carries the exception the Python code
      would have raised at that point. */
  datatype Result<+T, +E> = Ok(value: T) | Err(error: E)

  /** Applies `step` to each element in turn and collects the values; the
      first failure ends the run, as an exception ends a Python loop. */
  function MapUntilError<A, B, E>(xs: seq<A>, step: A -> Result<B, E>): (r: Result<seq<B>, E>)
    ensures r.Ok? <==> forall i :: 0 <= i < |xs| ==> step(xs[i]).Ok?
    ensures r.Ok? ==> |r.value| == |xs| && forall i :: 0 <= i < |xs| ==> step(xs[i]) == Ok(r.value[i])
    ensures r.Err? ==> exists i :: 0 <= i < |xs| && step(xs[i]) == Err(r.error)
                                   && forall j :: 0 <= j < i ==> step(xs[j]).Ok?
  {
    if |xs| == 0 then Ok([])
    else
      match step(xs[0])
      case Err(e) => Err(e)
      case Ok(y) =>
        assert forall i :: 1 <= i < |xs| ==> xs[1..][i - 1] == xs[i];
        match MapUntilError(xs[1..], step)
        case Err(e) =>
          assert exists i :: 0 <= i < |xs| && step(xs[i]) == Err(e) && forall j :: 0 <= j < i ==> step(xs[j]).Ok? by {
            var i :| 0 <= i < |xs[1..]| && step(xs[1..][i]) == Err(e)
                     && forall j :: 0 <= j < i ==> step(xs[1..][j]).Ok?;
            assert xs[1..][i] == xs[i + 1];
            forall j | 0 <= j < i + 1
              ensures step(xs[j]).Ok?
            {
              if j > 0 {
                assert xs[j] == xs[1..][j - 1];
              }
            }
          }
          Err(e)
        case Ok(ys) => Ok([y] + ys)
  }
}
